=== FILE: README.md ===
# Wellbeing survey store — a Dafny model

This project models the persistence and migration layer of the wellbeing survey app. Employees submit stress and motivation ratings, three sub-questions each, tagged with a department. The layer keeps them in a single SQLite table, `responses`. It covers:

- **Schema manager.** `check_table_exists` and `check_old_structure` recognise an older table whose rows hold one `stress` and one `motivation` scalar. `migrate_database` rewrites that table into the nine-column shape. It creates the staging table `responses_new` first. `sqlite3` runs that `CREATE` outside any transaction, so it takes effect at once. The transaction opens at the `INSERT` and covers the copy, the drop, the rename and the commit. `init_db` creates the table when it is missing and migrates it when it has the legacy shape.
- **Response store.** `add_response` appends one row. `load_responses_df` returns every row, or an empty frame under the fixed nine-column header. `delete_responses` removes the rows that meet every supplied filter: department, plus an inclusive first and last calendar day.
- **Submit handler.** It refuses the `"Select department"` placeholder.

The database is one table value (`Schema.Table`). A table is either `Absent` or present with a shape and its rows. The shape is legacy or current, and it fixes the column list that `PRAGMA table_info` reports. Rows are kept in rowid order, which is how SQLite stores a table keyed by `id INTEGER PRIMARY KEY`. `Database.Db` is a class that holds this table and the staging table `responses_new`. Its methods change them in place, the way the SQL statements do. Read-only queries are functions over the table value.

Files:

- `results.dfy`: `Option`, `Result` and the errors the statements can raise.
- `dates.dfy`: dates, `isoformat()`, `DATE(timestamp)`, and SQLite's text comparison. It proves that text order on `YYYY-MM-DD` strings is calendar order.
- `schema.dfy`: rows, shapes, legacy-shape detection, and the row map of the migration.
- `store.dfy`: loading, SQLite's id assignment, the delete filter, and the statement the delete runs.
- `database.dfy`: the `Db` class with `MigrateDatabase`, `InitDb`, `AddResponse` and `DeleteResponses`.
- `survey.dfy`: the submit handler's placeholder guard.

Three behaviours of the code are easy to miss:

- **Ids can be reused.** The table uses `INTEGER PRIMARY KEY` without `AUTOINCREMENT`, so SQLite gives a new row the largest current id plus one. After the newest row is deleted, its id is handed out again (`Store.DeletingNewestFreesItsId`). The model promises only that a new id is larger than every id present.
- **Store calls fail on the wrong table.** `init_db` can leave the legacy table in place after a rolled-back migration. On that table `add_response` raises, because the `stress_q1` column does not exist. It also raises `OverflowError` when a rating does not fit a signed 64-bit integer. `delete_responses` and `load_responses_df` still work on it. On a missing table all three raise. The model returns these errors as `Result` values.
- **An empty legacy table loads as current.** `load_responses_df` returns the nine current column names for any empty table, whatever its shape.

## Model

| member | source | states |
|---|---|---|
| `Schema.OldStructureDetection` | wellbeing.py:21-43 | With no `responses` table the legacy check is false. Otherwise it is true exactly when the table has the legacy shape, i.e. its columns contain both `stress` and `motivation` and it is not the current table. |
| `Schema.TableExists` | wellbeing.py:21-28 | none; its meaning is stated by `Schema.OldStructureDetection`. |
| `Schema.HasOldStructure` | wellbeing.py:30-43 | none; its meaning is stated by `Schema.OldStructureDetection`. |
| `Schema.MigrateRow` | wellbeing.py:71-78 | A legacy row comes out fanned out: same id, timestamp and department, and each scalar in all three of its sub-question columns. The result always has the current shape. |
| `Schema.MigrateRows` | wellbeing.py:71-78 | The copy has exactly as many rows as the legacy table. |
| `Schema.MigrateRowsFanOut` | wellbeing.py:71-78 | The copy keeps the row count, and row i of the result comes from legacy row i. Id, timestamp and department are unchanged. `stress_q1..q3` all equal the old `stress` and `motivation_q1..q3` all equal the old `motivation`. |
| `Schema.MigratedTableWellFormed` | wellbeing.py:53-87 | A well-formed legacy table migrates to a well-formed current table. The ids are the same, in the same order, and the result is no longer detected as legacy. |
| `Database.Db.MigrateDatabase` | wellbeing.py:45-94 | Not legacy-shaped: nothing changes. Legacy and every step succeeds: the table becomes the current-shaped fan-out of its rows, and no staging table remains. Legacy and some step raises: the rollback leaves the legacy table exactly as it was. An empty `responses_new` stays behind, unless the `CREATE` itself failed. |
| `Database.Db.InitDb` | wellbeing.py:96-118 | Afterwards the table exists. A missing table becomes an empty current table, and a current table is untouched. A legacy table is migrated or left as it was. It is still legacy exactly when the migration rolled back. The staging table `responses_new` has the same three outcomes as in `MigrateDatabase`: unchanged when nothing is migrated, gone after a migration, and empty after a rollback, unless the `CREATE` failed. |
| `Database.InitTwice` | wellbeing.py:96-118 | After a run of `init_db` that does not roll back, a second run leaves both `responses` and `responses_new` unchanged, whatever happens inside it. |
| `Database.Db.Open` | wellbeing.py:45-94 | A file on disk opens with its `responses` table and with its staging table. The staging table is either absent or the empty `responses_new` that an earlier rolled-back migration left behind. |
| `Database.Db.AddResponse` | wellbeing.py:120-128 | On a current table with every rating in the signed 64-bit range, exactly one row is appended after the unchanged old rows. It holds the next rowid, `isoformat()` of the supplied instant, and the department and six ratings verbatim, with no range check. The insert raises and nothing changes in three cases: the table is missing, the table is legacy, or a rating overflows. |
| `Store.NewRow` | wellbeing.py:123-126 | The inserted row has an id larger than every id present, the `YYYY-MM-DD` date of the supplied instant as its `DATE()`, and the department and ratings as given. |
| `Store.Bindable` | wellbeing.py:123-126 | none; it is the condition under which `sqlite3` binds the six ratings without `OverflowError`, each in [-2^63, 2^63-1]. Its effect is stated by `Database.Db.AddResponse`. |
| `Store.NextRowId` | wellbeing.py:120-128 | The id SQLite assigns is larger than every id in the table, so it differs from all of them. In an empty table it is 1. |
| `Store.InsertThenLoad` | wellbeing.py:120-140 | After an insert, loading returns the old rows unchanged plus one last row. That row has the submitted department and ratings, the calendar date of the supplied instant, and an id no other row has. Ids stay ascending. |
| `Store.LoadResponses` | wellbeing.py:130-140 | Loading succeeds exactly when the table exists, and it returns every stored row. An empty table gives the nine current columns, and a non-empty one gives its own columns. |
| `Database.Db.DeleteResponses` | wellbeing.py:142-165 | The built `WHERE 1=1 AND ...` statement leaves exactly the reference survivors in their order: the rows that fail at least one supplied filter. The shape is kept. On a missing table it raises and nothing changes. |
| `Store.ExecuteDelete` | wellbeing.py:150-163 | Running the built `DELETE` never adds rows. A row remains exactly when it was present and fails some `AND` term. Its helper `Store.Satisfies` reads `WHERE 1=1 AND ...` as the conjunction of the terms. |
| `Store.Holds` | wellbeing.py:153-161 | none; it reads one `AND` term (`department = ?`, `DATE(timestamp) >= ?` or `<= ?`) for one row. |
| `Store.ExecuteDeleteMeetsFilter` | wellbeing.py:150-163 | A statement whose `AND` terms select the same rows as the filter arguments deletes exactly the same rows as the filter. |
| `Store.SatisfiesAppend` | wellbeing.py:150-161 | Appending `AND` terms to the statement narrows it by exactly those terms. |
| `Store.SurvivorsExactly` | wellbeing.py:150-163 | A row remains after the delete exactly when it was present and fails some supplied filter. No row is created. |
| `Store.SurvivorsKeepIdsAscending` | wellbeing.py:142-165 | The delete keeps the surviving rows in order, so ids stay unique and ascending. |
| `Store.DeleteKeepsWellFormed` | wellbeing.py:142-165 | After a delete, every row still has its table's shape and ids stay ascending. |
| `Store.SelectedByCalendarDate` | wellbeing.py:153-161 | For a row stamped by `isoformat()`, the text-compared bounds select it exactly when the department filter is falsy or equal, and the row's calendar date is on or after the start and on or before the end. Both bounds are inclusive. |
| `Store.NoFilterDeletesAll` | wellbeing.py:142-150 | `delete_responses()` with no arguments removes every row. |
| `Store.LoadAfterWipe` | wellbeing.py:130-150 | After a full wipe, loading returns no rows under the nine columns `id, timestamp, department, stress_q1..q3, motivation_q1..q3`, in that order. |
| `Store.DeleteOnlyLast` | wellbeing.py:142-165 | A delete whose filters select only the newest row removes that row and keeps all others. |
| `Store.DeletingNewestFreesItsId` | wellbeing.py:120-128 | After the newest row is deleted, the next insert receives that row's id again. |
| `Store.AppendKeepsIdsAscending` | wellbeing.py:120-128 | Appending a row with SQLite's next id keeps ids unique and ascending. |
| `Dates.DateString` | wellbeing.py:156-161 | `strftime("%Y-%m-%d")`, and the date part of `isoformat()`, is 10 characters long. Its order and injectivity are stated by `Dates.DateStringOrder`. It writes each field with its helper `Dates.Pad` (`%04d`, `%02d`), which keeps the width and writes only digits. |
| `Dates.TextLe` | wellbeing.py:157-160 | none; it is SQLite's `<=` on TEXT under BINARY collation. Its meaning on dates is stated by `Dates.DateStringOrder`, and on padded numerals by `Dates.PadOrder`. |
| `Dates.DateStringOrder` | wellbeing.py:156-161 | On valid dates, text order of the `YYYY-MM-DD` strings is calendar order, and equal strings mean equal dates. |
| `Dates.PadOrder` | wellbeing.py:156-161 | For zero-padded numerals of one width, text order is numeric order and equal text means equal value. |
| `Dates.TextLeConcat` | wellbeing.py:156-161 | When two strings start with heads of equal length, their text order is decided by the heads first, then by the tails. |
| `Dates.IsoFormat` | wellbeing.py:125 | `isoformat()` starts with the `YYYY-MM-DD` string of the date, followed by `T`. The time part after the `T` is written by its helper `Dates.TimeString`. |
| `Dates.DateKey` | wellbeing.py:157-160 | `DATE(timestamp)` is SQL NULL or a 10-character prefix of the timestamp. |
| `Dates.IsoDateKey` | wellbeing.py:125 | `DATE()` of an `isoformat()` timestamp is the `YYYY-MM-DD` string of its calendar date. |
| `Survey.Submit` | wellbeing.py:502-510 | With the placeholder department nothing is stored. Otherwise the response is added as `add_response` adds it, including its error cases. A table that holds no placeholder row still holds none afterwards. The staging table `responses_new` is unchanged. |

## Left out

- Connections, `get_conn`, the database path and the `print` logging in the migration are I/O. Connections are not modelled. Every statement a method runs is committed or rolled back before it returns.
- The clock: `datetime.utcnow()` is the `now` parameter of `AddResponse`.
- Which statement of the migration fails, and why, is engine behaviour. It is the `fault` parameter. After a failed run, the empty `responses_new` is modelled as left behind. The next run's `CREATE TABLE IF NOT EXISTS` reuses it, so `responses` ends the same as it would have.
- The `CREATE TABLE` of `init_db` and the check queries are assumed not to fail. A file that cannot be opened is fatal and outside the model.
- The model knows only two column sets for `responses`: the legacy five and the current nine. Tables with other column sets are not modelled.
- `Store.NextRowId`: SQLite's fallback of choosing a random unused rowid once the largest rowid reaches 2^63-1 is not modelled. Ids are unbounded integers.
- `Dates.DateKey`: SQL NULL from `DATE()` is modelled only for strings shorter than a date. Other malformed timestamps are assumed not to occur.
- Date bounds are written as zero-padded `YYYY-MM-DD`. How `strftime("%Y")` writes years below 1000 depends on the platform and is not modelled.
- `pandas` parsing of `timestamp` into datetimes (`parse_dates`) is not modelled. Loaded rows keep the stored text.
- The stored department is any string, and ratings are any integers in the signed 64-bit range. The store does not validate them, and the slider bounds of the form are UI.
- `Database.Db.Open`: the legacy table is assumed to be keyed by `id INTEGER PRIMARY KEY` like the current one, so its ids are unique and stored in ascending order. The legacy schema is not part of this model. With repeated ids the migration's `INSERT` would fail on the UNIQUE constraint. With NULL ids SQLite would assign fresh rowids. With rows stored out of id order, `responses_new` would come out sorted by id. In all three cases, "row i comes from legacy row i, with the same ids in the same order" would not hold.
- All Streamlit UI, session state, the HR password gate, the float aggregation and rounding, critical-department thresholds, monthly grouping, charts and Excel export are presentation or floating-point code outside this layer.

=== FILE: database.dfy ===
/**
  The database file as an object whose tables the store's statements change
  in place (wellbeing.py, lines 45-165): `init_db`, `migrate_database`,
  `add_response` and `delete_responses`. Connections are not modelled; every
  statement a method runs is committed or rolled back before it returns.
 */
module Database {

  import opened Results
  import opened Dates
  import opened Schema
  import opened Store

  /** The statements of `migrate_database`, in order; a fault names the one that raises. */
  datatype MigrationStep = CreateStaging | CopyRows | DropLegacy | RenameStaging | Commit

  /** What `migrate_database` did: nothing to do, committed, or rolled back after a failing step. */
  datatype MigrationOutcome = NotNeeded | Migrated | RolledBack(failed: MigrationStep)

  class Db {
    /** The table named `responses`. */
    var responses: Table
    /**
      The staging table `responses_new`. Its `CREATE` commits on its own, so a
      migration that rolls back later leaves it behind, empty.
     */
    var responsesNew: Table

    ghost predicate Valid()
      reads this
    {
      WellFormed(responses) && (responsesNew == Absent || responsesNew == Present(CurrentShape, []))
    }

    /** A database file that holds no table yet. */
    constructor ()
      ensures Valid() && responses == Absent && responsesNew == Absent
    {
      responses := Absent;
      responsesNew := Absent;
    }

    /**
      A database file found on disk with the given `responses` table and
      staging table; the latter is absent, or the empty `responses_new` an
      earlier process's rolled-back migration left behind.
     */
    constructor Open(t: Table, staging: Table)
      requires WellFormed(t)
      requires staging == Absent || staging == Present(CurrentShape, [])
      ensures Valid() && responses == t && responsesNew == staging
    {
      responses := t;
      responsesNew := staging;
    }

    /**
      `migrate_database`: on a legacy-shaped table, create the current-shaped
      staging table, copy every row into it with each scalar fanned out, drop
      the old table and rename the staging one. `sqlite3` runs the `CREATE`
      outside any transaction, so it takes effect at once; the transaction
      opens at the `INSERT` and covers the copy, drop, rename and commit. If
      `fault` names a step, that step raises and the rollback undoes only what
      the transaction did: `responses` is as before, and an empty
      `responses_new` stays behind unless the `CREATE` itself failed. A later
      run's `CREATE TABLE IF NOT EXISTS` reuses that empty table.
     */
    method MigrateDatabase(fault: Option<MigrationStep>) returns (outcome: MigrationOutcome)
      requires Valid()
      modifies this
      ensures Valid()
      ensures !HasOldStructure(old(responses)) ==> outcome == NotNeeded && responses == old(responses)
      ensures !HasOldStructure(old(responses)) ==> responsesNew == old(responsesNew)
      ensures HasOldStructure(old(responses)) && fault.Some? ==>
        && outcome == RolledBack(fault.value)
        && responses == old(responses)
        && responsesNew == (if fault.value == CreateStaging then old(responsesNew) else Present(CurrentShape, []))
      ensures HasOldStructure(old(responses)) && fault.None? ==>
        && outcome == Migrated
        && responses == Present(CurrentShape, MigrateRows(old(responses).rows))
        && !HasOldStructure(responses)
        && responsesNew == Absent
    {
      if !HasOldStructure(responses) {
        return NotNeeded;
      }
      OldStructureDetection(responses);
      var failed := fault == Some(CreateStaging);
      if !failed {
        // CREATE TABLE IF NOT EXISTS responses_new (...), committed at once
        if responsesNew == Absent {
          responsesNew := Present(CurrentShape, []);
        }
        failed := fault == Some(CopyRows);
      }
      // the transaction begins with the INSERT
      var savedResponses, savedStaging := responses, responsesNew;
      if !failed {
        // INSERT INTO responses_new (...) SELECT id, timestamp, department, stress x3, motivation x3 FROM responses
        responsesNew := Present(CurrentShape, responsesNew.rows + MigrateRows(responses.rows));
        failed := fault == Some(DropLegacy);
      }
      if !failed {
        // DROP TABLE responses
        responses := Absent;
        failed := fault == Some(RenameStaging);
      }
      if !failed {
        // ALTER TABLE responses_new RENAME TO responses
        responses, responsesNew := responsesNew, Absent;
        failed := fault == Some(Commit);
      }
      assert fault.Some? ==> failed by {
        match fault
        case None =>
        case Some(step) =>
          match step
          case CreateStaging =>
          case CopyRows =>
          case DropLegacy =>
          case RenameStaging =>
          case Commit =>
      }
      if failed {
        responses, responsesNew := savedResponses, savedStaging;
        outcome := RolledBack(fault.value);
      } else {
        assert responses.rows == [] + MigrateRows(savedResponses.rows);
        MigratedTableWellFormed(savedResponses);
        outcome := Migrated;
      }
    }

    /**
      `init_db`: create the current-schema table if there is none, then
      migrate when the legacy shape is found. Afterwards the table exists, and
      it is legacy-shaped only if that migration rolled back.
     */
    method InitDb(fault: Option<MigrationStep>) returns (outcome: MigrationOutcome)
      requires Valid()
      modifies this
      ensures Valid()
      ensures TableExists(responses)
      ensures old(responses) == Absent ==> responses == Present(CurrentShape, []) && outcome == NotNeeded
      ensures old(responses).Present? && old(responses).shape == CurrentShape ==>
        responses == old(responses) && outcome == NotNeeded
      ensures old(responses).Present? && old(responses).shape == LegacyShape ==>
        if fault.None? then
          outcome == Migrated && responses == Present(CurrentShape, MigrateRows(old(responses).rows))
        else
          outcome == RolledBack(fault.value) && responses == old(responses)
      ensures HasOldStructure(responses) <==> outcome.RolledBack?
      ensures outcome == NotNeeded ==> responsesNew == old(responsesNew)
      ensures outcome == Migrated ==> responsesNew == Absent
      ensures outcome.RolledBack? ==>
        responsesNew == (if outcome.failed == CreateStaging then old(responsesNew) else Present(CurrentShape, []))
    {
      // CREATE TABLE IF NOT EXISTS responses (...)
      if responses == Absent {
        responses := Present(CurrentShape, []);
      }
      OldStructureDetection(responses);
      if HasOldStructure(responses) {
        outcome := MigrateDatabase(fault);
      } else {
        outcome := NotNeeded;
      }
    }

    /**
      `add_response`: insert one row stamped with `now` (the caller's
      `datetime.utcnow()`), storing the department and the six ratings as
      given, with no range check. The insert raises if the table is missing
      or still has the legacy columns, or if a rating does not fit a signed
      64-bit INTEGER; then nothing changes.
     */
    method AddResponse(department: string, stressQ1: int, stressQ2: int, stressQ3: int,
                       motivationQ1: int, motivationQ2: int, motivationQ3: int, now: DateTime)
      returns (status: Result<()>)
      requires Valid() && ValidDateTime(now)
      modifies this
      ensures Valid()
      ensures old(responses) == Absent ==> status == Err(NoSuchTable) && responses == old(responses)
      ensures old(responses).Present? && old(responses).shape == LegacyShape ==>
        status == Err(NoSuchColumn) && responses == old(responses)
      ensures old(responses).Present? && old(responses).shape == CurrentShape ==>
        var ratings := PerQuestion(stressQ1, stressQ2, stressQ3, motivationQ1, motivationQ2, motivationQ3);
        if Bindable(ratings) then
          && status == Ok(())
          && responses == Present(CurrentShape, old(responses).rows + [NewRow(old(responses).rows, department, ratings, now)])
        else
          status == Err(IntegerOverflow) && responses == old(responses)
      ensures responsesNew == old(responsesNew)
    {
      if responses == Absent {
        return Err(NoSuchTable);
      }
      if responses.shape == LegacyShape {
        return Err(NoSuchColumn);
      }
      var ratings := PerQuestion(stressQ1, stressQ2, stressQ3, motivationQ1, motivationQ2, motivationQ3);
      if !Bindable(ratings) {
        // binding the parameters raises OverflowError
        return Err(IntegerOverflow);
      }
      var row := NewRow(responses.rows, department, ratings, now);
      AppendKeepsIdsAscending(responses.rows, row);
      responses := Present(CurrentShape, responses.rows + [row]);
      status := Ok(());
    }

    /**
      `delete_responses`: build `DELETE FROM responses WHERE 1=1` with one
      `AND` term per truthy argument, then run it. Exactly the rows meeting
      every supplied filter go; the rest stay in order. On a missing table
      the statement raises and nothing changes.
     */
    method DeleteResponses(f: DeleteFilter) returns (status: Result<()>)
      requires Valid() && ValidFilter(f)
      modifies this
      ensures Valid()
      ensures old(responses) == Absent ==> status == Err(NoSuchTable) && responses == old(responses)
      ensures old(responses).Present? ==>
        status == Ok(()) && responses == Present(old(responses).shape, Survivors(old(responses).rows, f))
      ensures responsesNew == old(responsesNew)
    {
      var clauses: seq<Clause> := [];
      ghost var byDepartment: seq<Clause> :=
        if f.department.Some? && f.department.value != "" then [DepartmentIs(f.department.value)] else [];
      if f.department.Some? && f.department.value != "" {
        clauses := clauses + [DepartmentIs(f.department.value)];
      }
      assert clauses == byDepartment;
      ghost var byStart: seq<Clause> := if f.startDate.Some? then [DateFrom(DateString(f.startDate.value))] else [];
      if f.startDate.Some? {
        clauses := clauses + [DateFrom(DateString(f.startDate.value))];
      }
      assert clauses == byDepartment + byStart;
      ghost var byEnd: seq<Clause> := if f.endDate.Some? then [DateUntil(DateString(f.endDate.value))] else [];
      if f.endDate.Some? {
        clauses := clauses + [DateUntil(DateString(f.endDate.value))];
      }
      assert clauses == byDepartment + byStart + byEnd;
      forall r ensures Satisfies(r, clauses) <==> Selected(r, f) {
        SatisfiesAppend(r, byDepartment + byStart, byEnd);
        SatisfiesAppend(r, byDepartment, byStart);
        if byDepartment != [] {
          assert Satisfies(r, byDepartment) <==> Holds(r, byDepartment[0]);
        }
        if f.startDate.Some? {
          assert Satisfies(r, byStart) <==> Holds(r, byStart[0]);
        }
        if f.endDate.Some? {
          assert Satisfies(r, byEnd) <==> Holds(r, byEnd[0]);
        }
      }
      if responses == Absent {
        return Err(NoSuchTable);
      }
      ExecuteDeleteMeetsFilter(responses.rows, clauses, f);
      DeleteKeepsWellFormed(responses, f);
      responses := Present(responses.shape, ExecuteDelete(responses.rows, clauses));
      status := Ok(());
    }
  }

  /**
    `init_db` runs at every start-up: once a run has not rolled back, the
    next run changes nothing, neither `responses` nor `responses_new`,
    whatever happens inside it.
   */
  method InitTwice(db: Db, first: Option<MigrationStep>, second: Option<MigrationStep>)
    returns (once: Table, onceNew: Table, outcome: MigrationOutcome)
    requires db.Valid()
    modifies db
    ensures db.Valid()
    ensures first.None? ==> !outcome.RolledBack?
    ensures !outcome.RolledBack? ==> db.responses == once && !HasOldStructure(once)
    ensures !outcome.RolledBack? ==> db.responsesNew == onceNew
  {
    outcome := db.InitDb(first);
    once, onceNew := db.responses, db.responsesNew;
    OldStructureDetection(once);
    var _ := db.InitDb(second);
  }
}

=== FILE: dates.dfy ===
/**
  Calendar dates and the text forms the store compares them in.

  A submission's timestamp is `datetime.utcnow().isoformat()`, and the filtered
  delete compares SQLite's `DATE(timestamp)` (the `YYYY-MM-DD` head of that
  string) with the bounds formatted as `%Y-%m-%d`. SQLite compares TEXT values
  character by character, so the filter is only chronological if text order on
  those fixed-width strings agrees with calendar order; that is proved here.
 */
module Dates {

  import opened Results

  datatype Date = Date(year: int, month: int, day: int)

  datatype DateTime = DateTime(date: Date, hour: int, minute: int, second: int, microsecond: int)

  predicate IsLeapYear(y: int) {
    y % 4 == 0 && (y % 100 != 0 || y % 400 == 0)
  }

  function DaysInMonth(y: int, m: int): int
    requires 1 <= m <= 12
  {
    if m == 2 then (if IsLeapYear(y) then 29 else 28)
    else if m == 4 || m == 6 || m == 9 || m == 11 then 30
    else 31
  }

  /** The dates Python's `datetime.date` can hold (years 1 to 9999). */
  predicate ValidDate(d: Date) {
    && 1 <= d.year <= 9999
    && 1 <= d.month <= 12
    && 1 <= d.day <= DaysInMonth(d.year, d.month)
  }

  predicate ValidDateTime(t: DateTime) {
    && ValidDate(t.date)
    && 0 <= t.hour < 24
    && 0 <= t.minute < 60
    && 0 <= t.second < 60
    && 0 <= t.microsecond < 1000000
  }

  /** Calendar order: earlier year, else earlier month, else earlier or same day. */
  predicate DateLe(a: Date, b: Date) {
    a.year < b.year || (a.year == b.year && (a.month < b.month || (a.month == b.month && a.day <= b.day)))
  }

  /** SQLite's BINARY collation on TEXT: `a <= b` compared character by character. */
  predicate TextLe(a: string, b: string)
    decreases |a|
  {
    if a == [] then true
    else if b == [] then false
    else a[0] < b[0] || (a[0] == b[0] && TextLe(a[1..], b[1..]))
  }

  function Pow10(w: nat): nat {
    if w == 0 then 1 else 10 * Pow10(w - 1)
  }

  function DigitChar(d: int): char
    requires 0 <= d < 10
  {
    (48 + d) as char
  }

  /** The last `w` decimal digits of `n`, zero-padded on the left (`%02d`, `%04d`). */
  function Pad(n: nat, w: nat): (s: string)
    ensures |s| == w
    ensures forall i :: 0 <= i < |s| ==> '0' <= s[i] <= '9'
  {
    if w == 0 then [] else Pad(n / 10, w - 1) + [DigitChar(n % 10)]
  }

  /** `YYYY-MM-DD`, as `date.isoformat()` and `strftime("%Y-%m-%d")` write it. */
  function DateString(d: Date): (s: string)
    requires ValidDate(d)
    ensures |s| == 10
  {
    Pad(d.year, 4) + ("-" + (Pad(d.month, 2) + ("-" + Pad(d.day, 2))))
  }

  /** `HH:MM:SS`, followed by `.ffffff` only when the microseconds are not zero. */
  function TimeString(t: DateTime): string
    requires ValidDateTime(t)
  {
    Pad(t.hour, 2) + ":" + Pad(t.minute, 2) + ":" + Pad(t.second, 2)
    + (if t.microsecond != 0 then "." + Pad(t.microsecond, 6) else "")
  }

  /** `datetime.isoformat()` of a naive datetime: date, `T`, time. */
  function IsoFormat(t: DateTime): (s: string)
    requires ValidDateTime(t)
    ensures |s| > 10 && s[..10] == DateString(t.date) && s[10] == 'T'
  {
    DateString(t.date) + ("T" + TimeString(t))
  }

  /**
    SQLite's `DATE(timestamp)` on a stored timestamp: the `YYYY-MM-DD` head of
    an ISO-8601 string. A string too short to hold a date yields SQL NULL.
   */
  function DateKey(timestamp: string): (key: Option<string>)
    ensures key.Some? ==> |key.value| == 10 && key.value <= timestamp
  {
    if |timestamp| >= 10 then Some(timestamp[..10]) else None
  }

  /** Text comparison of two strings of equal-length heads is decided by the heads first. */
  lemma {:induction false} TextLeConcat(a1: string, a2: string, b1: string, b2: string)
    requires |a1| == |b1|
    ensures TextLe(a1 + a2, b1 + b2) <==> (a1 != b1 && TextLe(a1, b1)) || (a1 == b1 && TextLe(a2, b2))
  {
    if a1 == [] {
      assert a1 + a2 == a2 && b1 + b2 == b2;
    } else {
      assert (a1 + a2)[0] == a1[0] && (b1 + b2)[0] == b1[0];
      assert (a1 + a2)[1..] == a1[1..] + a2;
      assert (b1 + b2)[1..] == b1[1..] + b2;
      TextLeConcat(a1[1..], a2, b1[1..], b2);
      assert a1 == [a1[0]] + a1[1..] && b1 == [b1[0]] + b1[1..];
    }
  }

  /** On zero-padded numerals of one width, text order is numeric order and equal text is equal value. */
  lemma {:induction false} PadOrder(n: nat, k: nat, w: nat)
    requires n < Pow10(w) && k < Pow10(w)
    ensures TextLe(Pad(n, w), Pad(k, w)) <==> n <= k
    ensures Pad(n, w) == Pad(k, w) <==> n == k
  {
    if w > 0 {
      PadOrder(n / 10, k / 10, w - 1);
      var dn, dk := [DigitChar(n % 10)], [DigitChar(k % 10)];
      TextLeConcat(Pad(n / 10, w - 1), dn, Pad(k / 10, w - 1), dk);
      assert TextLe(dn, dk) <==> n % 10 <= k % 10 by {
        assert dn[1..] == [] && dk[1..] == [];
      }
      if Pad(n, w) == Pad(k, w) {
        assert Pad(n / 10, w - 1) == Pad(n, w)[..w - 1] == Pad(k, w)[..w - 1] == Pad(k / 10, w - 1);
        assert Pad(n, w)[w - 1] == DigitChar(n % 10) && Pad(k, w)[w - 1] == DigitChar(k % 10);
      }
    }
  }

  /** Text order on `YYYY-MM-DD` strings is calendar order (PadOrder on each field). */
  lemma DateStringOrder(a: Date, b: Date)
    requires ValidDate(a) && ValidDate(b)
    ensures TextLe(DateString(a), DateString(b)) <==> DateLe(a, b)
    ensures DateString(a) == DateString(b) <==> a == b
  {
    assert Pow10(2) == 100 && Pow10(4) == 10000;
    var dayA, dayB := "-" + Pad(a.day, 2), "-" + Pad(b.day, 2);
    var monthA, monthB := Pad(a.month, 2) + dayA, Pad(b.month, 2) + dayB;
    PadOrder(a.day, b.day, 2);
    TextLeConcat("-", Pad(a.day, 2), "-", Pad(b.day, 2));
    PadOrder(a.month, b.month, 2);
    TextLeConcat(Pad(a.month, 2), dayA, Pad(b.month, 2), dayB);
    TextLeConcat("-", monthA, "-", monthB);
    PadOrder(a.year, b.year, 4);
    TextLeConcat(Pad(a.year, 4), "-" + monthA, Pad(b.year, 4), "-" + monthB);
    if DateString(a) == DateString(b) {
      assert Pad(a.year, 4) == DateString(a)[..4] && Pad(b.year, 4) == DateString(b)[..4];
      assert Pad(a.month, 2) == DateString(a)[5..7] && Pad(b.month, 2) == DateString(b)[5..7];
      assert Pad(a.day, 2) == DateString(a)[8..] && Pad(b.day, 2) == DateString(b)[8..];
    }
  }

  /** `DATE()` of an `isoformat()` timestamp is the `YYYY-MM-DD` string of its calendar date. */
  lemma IsoDateKey(t: DateTime)
    requires ValidDateTime(t)
    ensures DateKey(IsoFormat(t)) == Some(DateString(t.date))
  {
    var d := DateString(t.date);
    assert |d| == 10;
    assert IsoFormat(t)[..10] == d;
  }
}

=== FILE: results.dfy ===
/** The outcomes the store's operations report to their callers. */
module Results {

  datatype Option<T> = None | Some(value: T)

  /** The exceptions the store's statements can raise. */
  datatype DbError =
    | NoSuchTable      // `responses` does not exist yet
    | NoSuchColumn     // the statement names a column the table's shape lacks
    | IntegerOverflow  // a bound Python int lies outside SQLite's signed 64-bit INTEGER

  datatype Result<T> = Ok(value: T) | Err(error: DbError)
}

=== FILE: schema.dfy ===
/**
  The `responses` table, its two shapes, how the legacy shape is recognised,
  and the row map the migration applies (wellbeing.py, lines 21-118).

  The database is one table value: absent on a new file, or present with a
  shape (its column list) and its rows in rowid order, which is how SQLite
  stores and scans a table whose key is `id INTEGER PRIMARY KEY`.
 */
module Schema {

  /** The ratings a row carries: one scalar per dimension, or three sub-answers each. */
  datatype Ratings =
    | Scalar(stress: int, motivation: int)
    | PerQuestion(stressQ1: int, stressQ2: int, stressQ3: int,
                  motivationQ1: int, motivationQ2: int, motivationQ3: int)

  datatype Row = Row(id: int, timestamp: string, department: string, ratings: Ratings)

  datatype Shape = LegacyShape | CurrentShape

  datatype Table = Absent | Present(shape: Shape, rows: seq<Row>)

  /** `PRAGMA table_info(responses)` column names of the pre-migration table. */
  const LegacyColumns: seq<string> := ["id", "timestamp", "department", "stress", "motivation"]

  /** Column names of the table `init_db` and `migrate_database` create. */
  const CurrentColumns: seq<string> :=
    ["id", "timestamp", "department",
     "stress_q1", "stress_q2", "stress_q3",
     "motivation_q1", "motivation_q2", "motivation_q3"]

  function Columns(shape: Shape): seq<string> {
    match shape
    case LegacyShape => LegacyColumns
    case CurrentShape => CurrentColumns
  }

  function ShapeOf(r: Ratings): Shape {
    if r.Scalar? then LegacyShape else CurrentShape
  }

  predicate IdsAscending(rows: seq<Row>) {
    forall i, j :: 0 <= i < j < |rows| ==> rows[i].id < rows[j].id
  }

  /**
    What the database file can hold: every row has the columns of its table's
    shape, and ids (the rowid key) are unique, in ascending order.
   */
  predicate WellFormed(t: Table) {
    t.Present? ==>
      && (forall i :: 0 <= i < |t.rows| ==> ShapeOf(t.rows[i].ratings) == t.shape)
      && IdsAscending(t.rows)
  }

  /** `check_table_exists`: `sqlite_master` lists a table named `responses`. */
  predicate TableExists(t: Table) {
    t.Present?
  }

  /** `check_old_structure`: the table exists and its columns include both `motivation` and `stress`. */
  predicate HasOldStructure(t: Table) {
    if !TableExists(t) then false
    else var columns := Columns(t.shape); "motivation" in columns && "stress" in columns
  }

  /** The legacy shape is recognised exactly: no current-shaped or absent table is taken for it. */
  lemma OldStructureDetection(t: Table)
    ensures !TableExists(t) ==> !HasOldStructure(t)
    ensures HasOldStructure(t) <==> t.Present? && t.shape == LegacyShape
  {
    assert "stress" in LegacyColumns && "motivation" in LegacyColumns;
    assert "stress" !in CurrentColumns;
  }

  /** One row of `INSERT INTO responses_new ... SELECT id, timestamp, department, stress x3, motivation x3`. */
  function MigrateRow(r: Row): (m: Row)
    ensures r.ratings.Scalar? ==> FannedOut(r, m)
    ensures ShapeOf(m.ratings) == CurrentShape
  {
    match r.ratings
    case Scalar(s, m) => r.(ratings := PerQuestion(s, s, s, m, m, m))
    case PerQuestion(_, _, _, _, _, _) => r
  }

  /** The whole `INSERT ... SELECT ... FROM responses`, in scan order. */
  function MigrateRows(rows: seq<Row>): (out: seq<Row>)
    ensures |out| == |rows|
  {
    if rows == [] then [] else [MigrateRow(rows[0])] + MigrateRows(rows[1..])
  }

  /** The sub-question columns each hold the old scalar. */
  predicate FannedOut(legacy: Row, migrated: Row) {
    && migrated.id == legacy.id
    && migrated.timestamp == legacy.timestamp
    && migrated.department == legacy.department
    && legacy.ratings.Scalar?
    && migrated.ratings.PerQuestion?
    && migrated.ratings.stressQ1 == migrated.ratings.stressQ2 == migrated.ratings.stressQ3 == legacy.ratings.stress
    && migrated.ratings.motivationQ1 == migrated.ratings.motivationQ2 == migrated.ratings.motivationQ3 == legacy.ratings.motivation
  }

  /** Migration neither adds nor drops rows, and fans out row i of the legacy table into row i. */
  lemma {:induction false} MigrateRowsFanOut(rows: seq<Row>)
    requires forall i :: 0 <= i < |rows| ==> rows[i].ratings.Scalar?
    ensures forall i :: 0 <= i < |rows| ==> FannedOut(rows[i], MigrateRows(rows)[i])
  {
    if rows != [] {
      MigrateRowsFanOut(rows[1..]);
      var out := MigrateRows(rows);
      forall i | 0 <= i < |rows| ensures FannedOut(rows[i], out[i]) {
        if i > 0 {
          assert out[i] == MigrateRows(rows[1..])[i - 1];
        }
      }
    }
  }

  /** A well-formed legacy table migrates to a well-formed current table holding the same ids. */
  lemma MigratedTableWellFormed(t: Table)
    requires WellFormed(t) && t.Present? && t.shape == LegacyShape
    ensures var u := Present(CurrentShape, MigrateRows(t.rows));
      && WellFormed(u)
      && !HasOldStructure(u)
      && (forall i :: 0 <= i < |t.rows| ==> u.rows[i].id == t.rows[i].id)
  {
    MigrateRowsFanOut(t.rows);
    OldStructureDetection(Present(CurrentShape, MigrateRows(t.rows)));
  }
}

=== FILE: store.dfy ===
/**
  The response store's read side and the rules its writes follow
  (wellbeing.py, lines 120-165): what `load_responses_df` returns, which id
  SQLite gives an inserted row, and which rows a filtered delete removes.
 */
module Store {

  import opened Results
  import opened Dates
  import opened Schema

  /** A loaded DataFrame: its column header and its rows. */
  datatype Frame = Frame(columns: seq<string>, rows: seq<Row>)

  /**
    `load_responses_df`: every stored row, under the table's columns; an empty
    table yields an empty frame under the fixed current-schema header. Reading
    a table that does not exist raises.
   */
  function LoadResponses(t: Table): (r: Result<Frame>)
    ensures r.Ok? <==> TableExists(t)
    ensures r.Ok? ==> r.value.rows == t.rows
    ensures r.Ok? && t.rows == [] ==> r.value.columns == CurrentColumns
    ensures r.Ok? && t.rows != [] ==> r.value.columns == Columns(t.shape)
  {
    match t
    case Absent => Err(NoSuchTable)
    case Present(shape, rows) =>
      if rows == [] then Ok(Frame(CurrentColumns, [])) else Ok(Frame(Columns(shape), rows))
  }

  /** The largest id in a non-empty table. */
  function MaxId(rows: seq<Row>): (m: int)
    requires rows != []
    ensures forall i :: 0 <= i < |rows| ==> rows[i].id <= m
    ensures exists i :: 0 <= i < |rows| && rows[i].id == m
  {
    if |rows| == 1 then rows[0].id
    else
      var rest := MaxId(rows[1..]);
      assert forall i :: 1 <= i < |rows| ==> rows[i] == rows[1..][i - 1];
      if rows[0].id >= rest then rows[0].id else rest
  }

  /**
    The rowid SQLite gives a row inserted without an id into a table keyed by
    `INTEGER PRIMARY KEY` (no AUTOINCREMENT): one more than the largest rowid,
    or 1 in an empty table. It is larger than, hence distinct from, every id
    present; it is not fresh across deletions.
   */
  function NextRowId(rows: seq<Row>): (id: int)
    ensures forall i :: 0 <= i < |rows| ==> rows[i].id < id
    ensures rows == [] ==> id == 1
  {
    if rows == [] then 1 else MaxId(rows) + 1
  }

  /** Appending the inserted row keeps ids unique and ascending. */
  lemma AppendKeepsIdsAscending(rows: seq<Row>, r: Row)
    requires IdsAscending(rows)
    requires r.id == NextRowId(rows)
    ensures IdsAscending(rows + [r])
  {
  }

  /** The arguments of `delete_responses(department, start_date, end_date)`; `None` is Python's `None`. */
  datatype DeleteFilter = DeleteFilter(department: Option<string>, startDate: Option<Date>, endDate: Option<Date>)

  const NoFilter := DeleteFilter(None, None, None)

  predicate ValidFilter(f: DeleteFilter) {
    && (f.startDate.Some? ==> ValidDate(f.startDate.value))
    && (f.endDate.Some? ==> ValidDate(f.endDate.value))
  }

  /** `if department:` -- `None` and the empty string are falsy and impose no constraint. */
  predicate DepartmentSelected(r: Row, department: Option<string>) {
    department.Some? && department.value != "" ==> r.department == department.value
  }

  /** Inclusive lower bound on `DATE(timestamp)`; NULL (a timestamp with no date) never compares true. */
  predicate StartSelected(r: Row, startDate: Option<Date>)
    requires startDate.Some? ==> ValidDate(startDate.value)
  {
    startDate.Some? ==>
      var key := DateKey(r.timestamp);
      key.Some? && TextLe(DateString(startDate.value), key.value)
  }

  /** Inclusive upper bound on `DATE(timestamp)`. */
  predicate EndSelected(r: Row, endDate: Option<Date>)
    requires endDate.Some? ==> ValidDate(endDate.value)
  {
    endDate.Some? ==>
      var key := DateKey(r.timestamp);
      key.Some? && TextLe(key.value, DateString(endDate.value))
  }

  /** The rows `delete_responses` removes: those meeting every supplied filter. */
  predicate Selected(r: Row, f: DeleteFilter)
    requires ValidFilter(f)
  {
    DepartmentSelected(r, f.department) && StartSelected(r, f.startDate) && EndSelected(r, f.endDate)
  }

  /** The rows that stay, in their order: those failing at least one filter. */
  function Survivors(rows: seq<Row>, f: DeleteFilter): seq<Row>
    requires ValidFilter(f)
  {
    if rows == [] then []
    else if Selected(rows[0], f) then Survivors(rows[1..], f)
    else [rows[0]] + Survivors(rows[1..], f)
  }

  /** A delete keeps exactly the rows it does not select, and nothing new. */
  lemma {:induction false} SurvivorsExactly(rows: seq<Row>, f: DeleteFilter)
    requires ValidFilter(f)
    ensures forall r :: r in Survivors(rows, f) <==> r in rows && !Selected(r, f)
    ensures |Survivors(rows, f)| <= |rows|
  {
    if rows != [] {
      SurvivorsExactly(rows[1..], f);
      assert rows == [rows[0]] + rows[1..];
    }
  }

  /** A delete keeps the surviving rows in their order, so ids stay unique and ascending. */
  lemma {:induction false} SurvivorsKeepIdsAscending(rows: seq<Row>, f: DeleteFilter)
    requires ValidFilter(f) && IdsAscending(rows)
    ensures IdsAscending(Survivors(rows, f))
  {
    if rows != [] {
      var rest := rows[1..];
      assert IdsAscending(rest);
      SurvivorsKeepIdsAscending(rest, f);
      SurvivorsExactly(rest, f);
      if !Selected(rows[0], f) {
        var out := Survivors(rows, f);
        assert out == [rows[0]] + Survivors(rest, f);
        forall j | 0 < j < |out| ensures rows[0].id < out[j].id {
          assert out[j] in rest;
        }
      }
    }
  }

  /** A delete keeps rows well-formed for their table's shape. */
  lemma DeleteKeepsWellFormed(t: Table, f: DeleteFilter)
    requires ValidFilter(f) && WellFormed(t) && t.Present?
    ensures WellFormed(Present(t.shape, Survivors(t.rows, f)))
  {
    SurvivorsExactly(t.rows, f);
    SurvivorsKeepIdsAscending(t.rows, f);
    var out := Survivors(t.rows, f);
    forall i | 0 <= i < |out| ensures ShapeOf(out[i].ratings) == t.shape {
      assert out[i] in t.rows;
    }
  }

  /** `delete_responses()` with no argument selects every row and empties the table. */
  lemma {:induction false} NoFilterDeletesAll(rows: seq<Row>)
    ensures Survivors(rows, NoFilter) == []
  {
    if rows != [] {
      NoFilterDeletesAll(rows[1..]);
    }
  }

  /** After a full wipe, loading yields no rows under the nine current-schema columns. */
  lemma LoadAfterWipe(t: Table)
    requires t.Present?
    ensures LoadResponses(Present(t.shape, Survivors(t.rows, NoFilter))) == Ok(Frame(CurrentColumns, []))
  {
    NoFilterDeletesAll(t.rows);
  }

  /**
    Filtering is by calendar date: for a row stamped by `isoformat()`, the text
    bounds select it exactly when its date lies within the bounds, inclusive.
   */
  lemma SelectedByCalendarDate(r: Row, now: DateTime, f: DeleteFilter)
    requires ValidFilter(f) && ValidDateTime(now) && r.timestamp == IsoFormat(now)
    ensures Selected(r, f) <==>
      && DepartmentSelected(r, f.department)
      && (f.startDate.Some? ==> DateLe(f.startDate.value, now.date))
      && (f.endDate.Some? ==> DateLe(now.date, f.endDate.value))
  {
    IsoDateKey(now);
    if f.startDate.Some? {
      DateStringOrder(f.startDate.value, now.date);
    }
    if f.endDate.Some? {
      DateStringOrder(now.date, f.endDate.value);
    }
  }

  /** One `AND` term of the statement `delete_responses` builds, with its bound parameter. */
  datatype Clause =
    | DepartmentIs(department: string)  // AND department = ?
    | DateFrom(bound: string)           // AND DATE(timestamp) >= ?
    | DateUntil(bound: string)          // AND DATE(timestamp) <= ?

  /** SQLite's reading of one term for one row. */
  predicate Holds(r: Row, c: Clause) {
    match c
    case DepartmentIs(d) => r.department == d
    case DateFrom(b) => var key := DateKey(r.timestamp); key.Some? && TextLe(b, key.value)
    case DateUntil(b) => var key := DateKey(r.timestamp); key.Some? && TextLe(key.value, b)
  }

  /** `WHERE 1=1 AND ...`: every term holds. */
  predicate Satisfies(r: Row, clauses: seq<Clause>) {
    forall i :: 0 <= i < |clauses| ==> Holds(r, clauses[i])
  }

  /** Adding `AND` terms to a statement narrows it by exactly those terms. */
  lemma SatisfiesAppend(r: Row, clauses: seq<Clause>, more: seq<Clause>)
    ensures Satisfies(r, clauses + more) <==> Satisfies(r, clauses) && Satisfies(r, more)
  {
    var all := clauses + more;
    if Satisfies(r, clauses) && Satisfies(r, more) {
      forall i | 0 <= i < |all| ensures Holds(r, all[i]) {
        if i >= |clauses| {
          assert all[i] == more[i - |clauses|];
        }
      }
    }
    if Satisfies(r, all) {
      forall i | 0 <= i < |clauses| ensures Holds(r, clauses[i]) {
        assert clauses[i] == all[i];
      }
      forall i | 0 <= i < |more| ensures Holds(r, more[i]) {
        assert more[i] == all[|clauses| + i];
      }
    }
  }

  /** SQLite executing `DELETE FROM responses WHERE ...`: the rows not satisfying it stay. */
  function ExecuteDelete(rows: seq<Row>, clauses: seq<Clause>): (out: seq<Row>)
    ensures |out| <= |rows|
    ensures forall r :: r in out ==> r in rows && !Satisfies(r, clauses)
    ensures forall r :: r in rows && !Satisfies(r, clauses) ==> r in out
  {
    if rows == [] then []
    else if Satisfies(rows[0], clauses) then ExecuteDelete(rows[1..], clauses)
    else [rows[0]] + ExecuteDelete(rows[1..], clauses)
  }

  /** A statement whose terms select the same rows as the filter deletes the same rows. */
  lemma {:induction false} ExecuteDeleteMeetsFilter(rows: seq<Row>, clauses: seq<Clause>, f: DeleteFilter)
    requires ValidFilter(f)
    requires forall r :: Satisfies(r, clauses) <==> Selected(r, f)
    ensures ExecuteDelete(rows, clauses) == Survivors(rows, f)
  {
    if rows != [] {
      ExecuteDeleteMeetsFilter(rows[1..], clauses, f);
    }
  }

  const MinInt64: int := -0x8000_0000_0000_0000
  const MaxInt64: int := 0x7fff_ffff_ffff_ffff

  /** `sqlite3` binds a Python int only when it fits SQLite's signed 64-bit INTEGER. */
  predicate FitsInt64(x: int) {
    MinInt64 <= x <= MaxInt64
  }

  /** All six ratings of an insert can be bound as parameters. */
  predicate Bindable(r: Ratings)
    requires r.PerQuestion?
  {
    && FitsInt64(r.stressQ1) && FitsInt64(r.stressQ2) && FitsInt64(r.stressQ3)
    && FitsInt64(r.motivationQ1) && FitsInt64(r.motivationQ2) && FitsInt64(r.motivationQ3)
  }

  /** The row `add_response` inserts: SQLite's id, the supplied UTC instant, the values verbatim. */
  function NewRow(rows: seq<Row>, department: string, ratings: Ratings, now: DateTime): (r: Row)
    requires ValidDateTime(now)
    ensures forall i :: 0 <= i < |rows| ==> rows[i].id < r.id
    ensures DateKey(r.timestamp) == Some(DateString(now.date))
    ensures r.department == department && r.ratings == ratings
  {
    Row(NextRowId(rows), IsoFormat(now), department, ratings)
  }

  /**
    Insert-then-load: the loaded frame holds the old rows unchanged and one
    more row, last, with the submitted values and an id no other row has.
   */
  lemma InsertThenLoad(t: Table, department: string, ratings: Ratings, now: DateTime)
    requires WellFormed(t) && t.Present? && t.shape == CurrentShape && ratings.PerQuestion?
    requires ValidDateTime(now)
    ensures var u := Present(CurrentShape, t.rows + [NewRow(t.rows, department, ratings, now)]);
      && WellFormed(u)
      && LoadResponses(u).Ok?
      && var loaded := LoadResponses(u).value.rows;
      && |loaded| == |t.rows| + 1
      && loaded[..|t.rows|] == t.rows
      && loaded[|t.rows|].department == department
      && loaded[|t.rows|].ratings == ratings
      && DateKey(loaded[|t.rows|].timestamp) == Some(DateString(now.date))
      && forall i :: 0 <= i < |t.rows| ==> loaded[i].id != loaded[|t.rows|].id
  {
    var r := NewRow(t.rows, department, ratings, now);
    AppendKeepsIdsAscending(t.rows, r);
    IsoDateKey(now);
    assert (t.rows + [r])[..|t.rows|] == t.rows;
  }

  /** A delete that selects only the last row removes exactly that row. */
  lemma {:induction false} DeleteOnlyLast(rows: seq<Row>, last: Row, f: DeleteFilter)
    requires ValidFilter(f) && Selected(last, f)
    requires forall i :: 0 <= i < |rows| ==> !Selected(rows[i], f)
    ensures Survivors(rows + [last], f) == rows
  {
    if rows == [] {
      assert rows + [last] == [last];
    } else {
      assert (rows + [last])[1..] == rows[1..] + [last];
      DeleteOnlyLast(rows[1..], last, f);
    }
  }

  /**
    Ids are reused: when a delete removes the newest row and nothing else,
    the next insert gets the id that row had.
   */
  lemma DeletingNewestFreesItsId(rows: seq<Row>, newest: Row, f: DeleteFilter)
    requires ValidFilter(f) && Selected(newest, f)
    requires forall i :: 0 <= i < |rows| ==> !Selected(rows[i], f)
    requires newest.id == NextRowId(rows)
    ensures NextRowId(Survivors(rows + [newest], f)) == newest.id
  {
    DeleteOnlyLast(rows, newest, f);
  }
}

=== FILE: survey.dfy ===
/**
  The survey form's submit handler (wellbeing.py, lines 502-510): it refuses
  the department picker's placeholder and otherwise stores the response.
 */
module Survey {

  import opened Dates
  import opened Schema
  import opened Store
  import opened Database

  /** The first entry of the department picker, which names no department. */
  const Placeholder := "Select department"

  /**
    Pressing Submit: with the placeholder still selected nothing is stored;
    otherwise the response is added as `add_response` adds it. So no stored
    row ever carries the placeholder.
   */
  method Submit(db: Db, department: string, stressQ1: int, stressQ2: int, stressQ3: int,
                motivationQ1: int, motivationQ2: int, motivationQ3: int, now: DateTime)
    returns (saved: bool)
    requires db.Valid() && ValidDateTime(now)
    modifies db
    ensures db.Valid()
    ensures department == Placeholder ==> !saved && db.responses == old(db.responses)
    ensures saved <==>
      && department != Placeholder && old(db.responses).Present? && old(db.responses).shape == CurrentShape
      && Bindable(PerQuestion(stressQ1, stressQ2, stressQ3, motivationQ1, motivationQ2, motivationQ3))
    ensures saved ==> db.responses == Present(CurrentShape, old(db.responses).rows + [NewRow(old(db.responses).rows, department,
      PerQuestion(stressQ1, stressQ2, stressQ3, motivationQ1, motivationQ2, motivationQ3), now)])
    ensures !saved ==> db.responses == old(db.responses)
    ensures NoPlaceholder(old(db.responses)) ==> NoPlaceholder(db.responses)
    ensures db.responsesNew == old(db.responsesNew)
  {
    if department == Placeholder {
      saved := false;
    } else {
      var status := db.AddResponse(department, stressQ1, stressQ2, stressQ3,
                                   motivationQ1, motivationQ2, motivationQ3, now);
      saved := status.Ok?;
    }
  }

  predicate NoPlaceholder(t: Table) {
    t.Present? ==> forall i :: 0 <= i < |t.rows| ==> t.rows[i].department != Placeholder
  }
}
